=== FILE: README.md ===
# retryable: the retry decision logic of a resilient HTTP client

This project models the core of `retryable`, a Go package that wraps
`net/http` with retries. `DoWithContext` runs one request through an
`operation` closure. The external `backoff.Retry` invokes that closure
repeatedly. The closure does three things:

- It counts the invocation in a metadata record carried by the request's context.
- It gives up once the attempt cap is reached.
- Otherwise it calls the transport once and classifies the answer. The
  classes are: success, a permanent failure, a retryable failure, or a
  rate-limit wait taken from `Retry-After`.

The context accessors read the attempt count and the duration of the
successful attempt back out.

Modules:

- `Wrappers`: `Option`.
- `Strconv`: int64 bounds and wrap-around, and `strconv.ParseInt(s, 10, 64)`
  as `ParseInt64`. Also a decimal renderer `FormatInt`, the reference that
  the parser is proved to invert.
- `Regexp`: `MatchString` for the two literal patterns. This is substring
  containment, proved equivalent to the existence of an occurrence.
- `Context` (context.go): the `Metadata` record, and the carrier as a map
  from keys to values. In Go only the package's record can be stored under
  the private key. The model admits other values there, and
  `GetRequestMetadata` treats such a carrier as holding no record. The module also has `NewContext`, `getRequestMetadata` and the two
  accessors.
- `HttpClient` (http_client.go): `New`, `Classify` (the precedence ladder),
  `Operation` (the closure) and `Retry` (the minimal driver). It also has
  `DoWithContext`, which writes the final record back into the carrier.
  This is what the source's pointer mutation makes visible to the caller.
- `Runs`: whole-run properties. These cover exact call and attempt counts,
  stopping at the first terminal outcome, and independence from the carrier.
- `Scenarios`: the outcomes described by the package's table-driven tests.
- `Findings`: the attempt cap as written against the cap the comments describe.

The transport is a script. `script(i)` is the answer to the i-th transport
call of one `DoWithContext` call. It is either a transport error message,
optionally with a partial response that the code ignores, or a response
with its status, its `Retry-After` value and its measured duration.
Durations are opaque naturals in nanoseconds. Go's `int` is taken to be 64
bits wide.

Three behaviours of the code worth stating plainly:

- A `Retry-After` that does not parse yields a plain error
  (http_client.go:114-117). That error is retryable, not a hard stop,
  which agrees with "Anything else is retried" (http_client.go:57-61).
- The cap check `requests >= MaxRetries+1` runs after the counter is
  incremented (http_client.go:77, 82-84). So `MaxRetries = m` allows
  `max(m, 0)` transport calls: `MaxRetries = 0` allows none, and so does
  `MaxRetries = MaxInt64`, because `MaxRetries+1` wraps. The comment at
  http_client.go:46 promises 10 calls by default.
- A continuously failing transport therefore leaves the counter at
  `max(m+1, 1)` after `max(m, 0)` calls. At `MaxRetries = MaxInt64` the
  counter is 1 after no call.

The two tests that expect at least two attempts, or five calls, with
`MaxRetries = 0` (http_client_test.go:149-241) contradict the code and are
not encoded.

Both accessors are pure functions of the carrier, so "reading does not
change the record" holds by construction.

## Model

| member | source | states |
|---|---|---|
| Strconv.ParseInt64 | http_client.go:114 | Parsing gives a value only inside the int64 range. It needs at least one character, starting with a digit or with a sign followed by more characters. A negative value comes only from a leading `-`. |
| Strconv.ParseFormatRoundTrip | http_client.go:114-119 | Any int64 sent as a decimal `Retry-After` is read back exactly, including negatives. |
| Strconv.PlusSignIgnored | http_client.go:114 | A leading `+` is accepted and leaves the value unchanged, so `+5` reads as 5. |
| Strconv.LeadingZeroIgnored | http_client.go:114 | Leading zeros are accepted and leave the value unchanged, with or without a sign, so `007` reads as 7. With the round trip, `ParseRejectsOutOfRange` and `SignedZeroIsZero`, this fixes the value of every accepted string. |
| Strconv.ParseRejectsOutOfRange | http_client.go:114-116 | A decimal outside the int64 range is an error, not a clamped value, so it becomes a retryable error. |
| Strconv.SignedZeroIsZero | http_client.go:114 | `-0` and `+0` read as 0. |
| Strconv.ParseRejectsNonDigit | http_client.go:114-117 | Any character that is not a digit, other than a leading sign, makes the parse fail. So the HTTP-date form of `Retry-After` is rejected. |
| Regexp.MatchString | http_client.go:96-97 | A literal pattern matches a message exactly when it occurs in it at some index. |
| Regexp.MatchesEmbedded | http_client.go:15-24 | The patterns still match when net/http wraps the magic string in further context. |
| Context.NewContext | context.go:18-22 | A new context holds only the metadata key, and the record stored there is zeroed. |
| Context.GetRequestMetadata | context.go:24-30 | Lookup succeeds exactly when the private key holds a value of the metadata type, and it returns that record. |
| Context.StoreMetadata | context.go:8-13 | A mutation of the stored record is seen through the same carrier. No other key is added, removed or changed. |
| Context.NumberOfAttemptsFromContext | context.go:32-41 | Returns `(requests, true)` when a record is present, and `(0, false)` exactly when it is absent. |
| Context.SuccessfulRequestDurationFromContext | context.go:43-52 | Returns `(successfulDuration, true)` when a record is present, and `(0, false)` exactly when it is absent. |
| Context.NewContextReadsZero | context.go:20-22 | Reading a fresh context right away gives `(0, true)` for both accessors. |
| Context.BackgroundReadsAbsent | context.go:34-38 | A context that was never given a record reports `(0, false)` for both accessors. It does not report a zero that looks present. |
| Context.ForeignValueKeepsLookup | context.go:24-30 | A value stored under any other key neither hides the record nor counterfeits one. |
| HttpClient.New | http_client.go:43-51 | The default cap that the counter is compared against is 10. The maximum interval is 30 s, and the elapsed-time bound is off. |
| HttpClient.RateLimited | http_client.go:106-120 | For a 429 response: an empty `Retry-After` gives a 1-second wait, and a decimal `n` gives an `n`-second wait. Anything unparsable gives a retryable error naming the value. None of the three carries the response. |
| HttpClient.Classify | http_client.go:94-137 | A transport error yields a failure carrying that message, whatever partial response comes with it. It is permanent exactly when it is a redirect loop or an untrusted certificate. Success holds exactly for 200-299. Permanent holds exactly for those transport errors and for 400-499 except 429. 429 follows `RateLimited`. A response is handed back exactly when the transport replied with a status other than 429. The partial response of a transport error is dropped. |
| HttpClient.Cap | http_client.go:82-86 | The cap is `MaxRetries+1`, except that it wraps to the minimum int64 when `MaxRetries` is the maximum. |
| HttpClient.Attempt | http_client.go:90-137 | One transport call classifies its answer. The record's duration becomes that attempt's measured duration exactly on success, and is otherwise kept. |
| HttpClient.Operation | http_client.go:76-138 | The counter rises by exactly one per invocation, before the cap check. The transport is called exactly when the new count is below the cap. Otherwise the result is `Permanent(MaxAttemptsReached(cap))` with no response and no transport call. Only a success writes the duration. |
| HttpClient.Retry | http_client.go:140 | The driver ends on a success or a permanent decision. Every earlier answer was retryable. A non-exhausted run returns the classification of the last answer; an exhausted run saw only retryable answers. Under the rule as written, the counter equals the transport calls plus one for a final bail-out, stays below the cap unless exhausted, and never exceeds `max(cap, 1)`. Under the intended rule, the counter equals the transport calls, a bail-out is not counted, and it never exceeds `max(MaxRetries+1, start)`. The duration is the last answer's on success and untouched otherwise. |
| HttpClient.DoWithContext | http_client.go:62-141 | The counter restarts at 0 and the call ends terminally. A carrier keeps its presence or absence of metadata, and its other values are unchanged. The reported attempts are the transport calls plus one on exhaustion, between 1 and `max(cap, 1)`. Exhaustion happens only at the cap: after exactly `max(cap-1, 0)` transport calls, all of them retryable, with the counter at `max(cap, 1)`. A carrier without a record comes back unchanged. The reported duration changes only on success, to that attempt's duration. |
| Runs.ExhaustedRun | http_client.go:77-88 | With an always-retryable transport, the run ends in `MaxAttemptsReached(cap)` with the counter at `max(cap, start+1)`. It makes one transport call fewer than its invocations. |
| Runs.StopsAtFirstTerminal | http_client.go:96-140 | If the first success or permanent answer comes before the cap, the run returns exactly it. It consumes nothing after that answer, and counts one invocation per answer up to it. |
| Runs.RetryIgnoresDuration | http_client.go:67-74 | The recorded duration never influences decisions or the number of transport calls. |
| Runs.AlwaysRetryableCounts | http_client.go:74-88 | With an always-retryable transport there are `max(MaxRetries, 0)` transport calls and a final count of `max(MaxRetries+1, 1)`. At `MaxRetries = MaxInt64` there are no calls and the count is 1. |
| Runs.TerminalFirstOutcome | http_client.go:96-137 | A permanent or successful first answer leaves the count at 1 for any `MaxRetries`. When the cap exceeds 1, that answer is the result. |
| Runs.OutcomeIndependentOfCarrier | http_client.go:67-72 | A throwaway record and a carried record give the same decision and calls. A carrier without metadata still reports absence afterwards. |
| Runs.FailedCallKeepsDuration | http_client.go:74-135 | A call that does not succeed leaves an earlier call's recorded duration in place, because only the counter is reset. |
| Scenarios.RedirectLoopFailsEarly | http_client_test.go:30 | A redirect loop gives one attempt, a permanent error without response, and no duration, even with a retry left. |
| Scenarios.UntrustedCertificateFailsEarly | http_client.go:96-98 | An untrusted-certificate error is permanent wherever the message embeds the pattern. |
| Scenarios.RateLimitedCallsWait | http_client_test.go:31 | A 429 with `Retry-After: 1` waits 1 s. With one retry the call then fails with the counter at 2, after one transport call. |
| Scenarios.NotFoundFailsEarly | http_client_test.go:32 | A 404 gives one attempt and a permanent error that hands back the response. |
| Scenarios.ServerErrorsKeepRetrying | http_client_test.go:33 | A 500 is retried until the cap, giving a count of 2 and no duration. |
| Scenarios.OkReturnsWithTiming | http_client_test.go:34 | A 200 gives one attempt and success, and records exactly that attempt's duration. |
| Scenarios.SuccessAfterServerError | http_client.go:127-137 | A 500 then a 200 succeeds on the second call, with the duration of the second call alone. |
| Scenarios.NakedContextReportsNothing | http_client_test.go:116-147 | A bare context works, and afterwards still reports absence for both accessors. |
| Scenarios.RateLimitedWithoutRetryAfterFails | http_client_test.go:87-111 | A 429 without `Retry-After` waits the default 1 s each time, then fails with the default cap. A bare context reports no attempts. |
| Scenarios.HttpDateRetryAfterIsRetryable | http_client.go:114-117 | An HTTP-date `Retry-After` gives a retryable parse error without the response. |
| Findings.DefaultClientCallsNineTimes | http_client.go:46 | As written, the default client gives up after 9 transport calls, with the counter at 10. |
| Findings.ZeroRetriesNeverCallTransport | http_client.go:82-88 | As written, `MaxRetries = 0` fails with `MaxAttemptsReached(1)` and never calls the transport. |
| Findings.LargestRetriesNeverCallTransport | http_client.go:84-86 | As written, `MaxRetries = MaxInt64` fails at once, with a negative count in the error. |
| Findings.IntendedCounterCountsCalls | context.go:32-33 | Under the intended cap, the counter equals the transport calls and never exceeds `MaxRetries+1`. |
| Findings.IntendedRunMakesAllAttempts | http_client.go:82-83 | Under the intended cap, an always-retryable transport gets exactly `max(MaxRetries+1, 0)` calls (10 by default) before `MaxAttemptsReached(MaxRetries+1)`. |

## Left out

- The internals of the `backoff` library are not modelled. This covers exponential growth and jitter, `MaxInterval`, sleeping, the backoff reset after a `RetryAfter`, cancellation of the context, and how permanent errors are unwrapped. `Retry` keeps only what the operation relies on: it re-invokes on retryable decisions and stops on success or permanent ones.
- DoWithContext: modelled only for `MaxElapsedTime = 0`, the default of `New`. With a positive bound, the library may also stop after a retryable decision once the time budget is spent, and time is not modelled.
- The `net/http` transport is not modelled: redirect following, TLS and the default client. Its answers are script entries. `Header.Get` is taken as one string, with "" for absent. Its multi-value and whitespace handling is left out.
- Errors carry the status code where the source uses the `resp.Status` text. The text formatting of `MaxAttemptsReachedError` (error.go) is left out, and the error is the constructor `MaxAttemptsReached(c)`.
- Wall-clock measurement is left out. Each answer's duration is given by the script.
- `NewRequest` (request.go) is not part of this model. It buffers the body so every attempt resends the same bytes. That is I/O plumbing, with no decision logic.
- Pointer sharing between contexts derived from one another is left out. In Go, a child context sees the same record. Here only the carrier passed to `DoWithContext` is handed back updated.
- Concurrency is left out: the backoff state per request and the unshared metadata. So are doc.go and example_test.go.

## Findings

| source | as written | input that shows it | evidently intended | confidence | as-written member | corrected member |
|---|---|---|---|---|---|---|
| http_client.go:84 | The counter is incremented, then the call gives up when `requests >= MaxRetries+1`. That allows only `max(MaxRetries, 0)` transport calls. | `New()` against an always-500 server makes 9 calls, where the comment at line 46 promises 10. `MaxRetries = 0` makes none. | `MaxRetries+1` transport calls, with the counter equal to the calls | high; not executed | Findings.DefaultClientCallsNineTimes | Findings.IntendedRunMakesAllAttempts |
| http_client.go:84-86 | `h.MaxRetries+1` is computed in 64-bit `int` and wraps at `MaxRetries = MaxInt64`. | `MaxRetries = 9223372036854775807` fails on the first invocation with `MaxAttemptsReached(-9223372036854775808)` and no transport call. | an effectively unbounded number of attempts | medium; not executed | Findings.LargestRetriesNeverCallTransport | Findings.IntendedRunMakesAllAttempts |

The corrected cap is `HttpClient.CapRule.Intended`. It stops without counting once `requests > MaxRetries`, a comparison that cannot overflow. The counter itself is an unbounded integer in the model: at `MaxRetries = MaxInt64` a Go `int` counter would still wrap after 2^63 calls. `HttpClient.Operation` and the driver `HttpClient.Retry` are defined for both rules. Each contract clause of `Retry` is proved for the rule it names; the counter clauses differ between the rules, as the `HttpClient.Retry` row says. `DoWithContext` keeps the rule as written, because it models the code.

=== FILE: context.dfy ===
/**
 * The per-call metadata record and the carrier (a Go `context.Context`)
 * that holds it under a private key.
 *
 * In the source the carrier holds a pointer that `DoWithContext` mutates in
 * place; here the carrier is a value and the executor hands back the carrier
 * with the updated record (see `StoreMetadata`).
 */
module Context {
  import opened Wrappers

  /** `requestMetadata`: attempts of the last call, and the duration of its successful attempt. */
  datatype Metadata = Metadata(requests: int, successfulDuration: nat)

  /**
   * Keys of the carrier. `MetadataKey` is the unexported
   * `httpRequestMetadataContextKey{}`: no code outside the package can name
   * it, so only this package stores values under it.
   */
  datatype Key = MetadataKey | ForeignKey(name: string)

  /** Values held by a carrier: the package's metadata record, or anything else. */
  datatype Value = MetadataRef(md: Metadata) | ForeignValue(text: string)

  /** A context: the innermost value stored under each key. */
  datatype Carrier = Carrier(values: map<Key, Value>)

  /** `context.Background()`: holds nothing. */
  const Background: Carrier := Carrier(map[])

  /** `context.WithValue`: a child context with `v` stored under `k`. */
  function WithValue(parent: Carrier, k: Key, v: Value): Carrier {
    Carrier(parent.values[k := v])
  }

  /** `NewContext`: a background context carrying a fresh, zeroed record. */
  function NewContext(): (c: Carrier)
    ensures GetRequestMetadata(c) == Some(Metadata(0, 0))
    ensures c.values.Keys == {MetadataKey}
  {
    WithValue(Background, MetadataKey, MetadataRef(Metadata(0, 0)))
  }

  /**
   * `getRequestMetadata`: the record, when the private key holds a value of
   * the metadata type; nothing for any other carrier.
   */
  function GetRequestMetadata(c: Carrier): (r: Option<Metadata>)
    ensures r.Some? <==> MetadataKey in c.values && c.values[MetadataKey].MetadataRef?
    ensures r.Some? ==> c.values[MetadataKey] == MetadataRef(r.value)
  {
    if MetadataKey in c.values && c.values[MetadataKey].MetadataRef?
    then Some(c.values[MetadataKey].md)
    else None
  }

  /**
   * The carrier as seen after the record it holds has been mutated through
   * its pointer: the record is replaced, everything else is kept.
   */
  function StoreMetadata(c: Carrier, md: Metadata): (r: Carrier)
    requires GetRequestMetadata(c).Some?
    ensures GetRequestMetadata(r) == Some(md)
    ensures r.values.Keys == c.values.Keys
    ensures forall k :: k in c.values && k != MetadataKey ==> r.values[k] == c.values[k]
  {
    Carrier(c.values[MetadataKey := MetadataRef(md)])
  }

  /** `NumberOfAttemptsFromContext`: `(requests, true)` when a record is present, `(0, false)` otherwise. */
  function NumberOfAttemptsFromContext(c: Carrier): (r: (int, bool))
    ensures r.1 <==> GetRequestMetadata(c).Some?
    ensures r.1 ==> r.0 == GetRequestMetadata(c).value.requests
    ensures !r.1 ==> r.0 == 0
  {
    match GetRequestMetadata(c)
    case None => (0, false)
    case Some(md) => (md.requests, true)
  }

  /** `SuccessfulRequestDurationFromContext`: `(successfulDuration, true)` when present, `(0, false)` otherwise. */
  function SuccessfulRequestDurationFromContext(c: Carrier): (r: (nat, bool))
    ensures r.1 <==> GetRequestMetadata(c).Some?
    ensures r.1 ==> r.0 == GetRequestMetadata(c).value.successfulDuration
    ensures !r.1 ==> r.0 == 0
  {
    match GetRequestMetadata(c)
    case None => (0, false)
    case Some(md) => (md.successfulDuration, true)
  }

  /** A fresh context reads as zero attempts and zero duration, both present. */
  lemma NewContextReadsZero()
    ensures NumberOfAttemptsFromContext(NewContext()) == (0, true)
    ensures SuccessfulRequestDurationFromContext(NewContext()) == (0, true)
  {
  }

  /** A context that was never given a record reports absence, not a zero-valued presence. */
  lemma BackgroundReadsAbsent()
    ensures NumberOfAttemptsFromContext(Background) == (0, false)
    ensures SuccessfulRequestDurationFromContext(Background) == (0, false)
  {
  }

  /** Values stored under any other key neither hide nor fake the record. */
  lemma ForeignValueKeepsLookup(c: Carrier, name: string, v: Value)
    ensures GetRequestMetadata(WithValue(c, ForeignKey(name), v)) == GetRequestMetadata(c)
  {
  }
}

=== FILE: findings.dfy ===
/**
 * The attempt cap as written against the cap its comments describe
 * ("For a total of 10 calls, by default"; "the first attempt isn't a retry,
 * it's a try"): `MaxRetries` retries after one try, so `MaxRetries+1`
 * transport calls.
 */
module Findings {
  import opened Wrappers
  import opened Strconv
  import opened Context
  import opened HttpClient
  import opened Runs

  /** As written, the default client calls the transport 9 times, not 10, before giving up. */
  lemma DefaultClientCallsNineTimes(script: nat -> Exchange)
    requires NeverTerminal(script, 0)
    ensures var r := DoWithContext(New(), NewContext(), script);
      && r.calls == 9
      && r.decision == Permanent(MaxAttemptsReached(10), None)
      && NumberOfAttemptsFromContext(r.ctx) == (10, true)
  {
    AlwaysRetryableCounts(New(), NewContext(), script);
  }

  /** As written, `MaxRetries = 0` fails every call without a single transport call. */
  lemma ZeroRetriesNeverCallTransport(script: nat -> Exchange)
    ensures var r := DoWithContext(Client(0, Second, 0), NewContext(), script);
      && r.calls == 0
      && r.decision == Permanent(MaxAttemptsReached(1), None)
  {
  }

  /** As written, `MaxRetries = MaxInt64` wraps the cap negative: no transport call, a negative count in the error. */
  lemma LargestRetriesNeverCallTransport(script: nat -> Exchange)
    ensures var r := DoWithContext(Client(MaxInt64, Second, 0), NewContext(), script);
      && r.calls == 0
      && r.decision == Permanent(MaxAttemptsReached(MinInt64), None)
  {
  }

  /**
   * Under the intended cap the counter counts transport calls exactly, and
   * never exceeds `MaxRetries+1`.
   */
  lemma IntendedCounterCountsCalls(m: Int64, md: Metadata, script: nat -> Exchange)
    ensures var r := Retry(Intended, m, md.(requests := 0), 0, script);
      && r.md.requests == r.calls
      && r.calls <= Max(m + 1, 0)
  {
  }

  /**
   * Under the intended cap an always-retryable transport is called exactly
   * `MaxRetries+1` times (none for a negative `MaxRetries`) before
   * `MaxAttemptsReached(MaxRetries+1)`; the default client makes 10 calls.
   */
  lemma IntendedRunMakesAllAttempts(m: Int64, md: Metadata, script: nat -> Exchange)
    requires NeverTerminal(script, 0)
    ensures var r := Retry(Intended, m, md.(requests := 0), 0, script);
      && r.decision == Permanent(MaxAttemptsReached(m + 1), None)
      && r.calls == Max(m + 1, 0)
      && r.md.requests == r.calls
    ensures Retry(Intended, New().maxRetries, md.(requests := 0), 0, script).calls == 10
  {
  }
}

=== FILE: http_client.dfy ===
/**
 * The retrying HTTP client: the classification of one transport outcome,
 * the per-attempt operation closure of `DoWithContext`, a minimal model of
 * the external `backoff.Retry` driver, and `DoWithContext` itself.
 *
 * The transport is a script: `script(i)` is what `h.Do(req)` answers on its
 * i-th call (0-based) within one `DoWithContext` call.
 */
module HttpClient {
  import opened Wrappers
  import opened Strconv
  import opened Regexp
  import opened Context

  /** Literal patterns matched against transport error messages. */
  const RedirectErrorPattern: string := "stopped after 10 redirects"
  const UntrustedCertErrorPattern: string := "certificate is not trusted"

  /** Seconds to wait after a 429 that carries no `Retry-After` header. */
  const Default429RetrySeconds: int := 1

  /** One second, in the nanoseconds of a Go `time.Duration`. */
  const Second: nat := 1_000_000_000

  /** The `HttpClient` struct; durations are in nanoseconds. */
  datatype Client = Client(maxRetries: Int64, maxInterval: nat, maxElapsedTime: nat)

  /** A response as far as the classifier reads it; `retryAfter` is `Header.Get("Retry-After")`, "" when absent. */
  datatype Response = Response(status: nat, retryAfter: string)

  /**
   * One answer of the transport. A transport error may come with a partial
   * response (net/http returns one when a redirect check fails), which the
   * classifier ignores. `elapsed` is the measured duration of the attempt.
   */
  datatype Exchange =
    | TransportError(message: string, partial: Option<Response>)
    | Reply(response: Response, elapsed: nat)

  /**
   * Errors a call can end with. `RetryAfterUnparsable` stands for both
   * errors of `strconv.ParseInt`: bad syntax and a value outside int64.
   */
  datatype Error =
    | TransportFailure(message: string)
    | StatusFailure(status: nat)
    | RetryAfterUnparsable(value: string)
    | MaxAttemptsReached(c: int)

  /** What one operation invocation tells the driver. */
  datatype Decision =
    | Success(response: Response)
    | Permanent(error: Error, attached: Option<Response>)
    | Retryable(error: Error, attached: Option<Response>)
    | RetryAfter(seconds: int)

  /** Decisions on which the driver stops. */
  predicate Terminal(d: Decision) {
    d.Success? || d.Permanent?
  }

  /** The permanent error raised when the attempt budget is used up. */
  predicate Exhausted(d: Decision) {
    d.Permanent? && d.error.MaxAttemptsReached?
  }

  /** The response handed back to the caller along with a decision, if any. */
  function Attached(d: Decision): Option<Response> {
    match d
    case Success(resp) => Some(resp)
    case Permanent(_, resp) => resp
    case Retryable(_, resp) => resp
    case RetryAfter(_) => None
  }

  /** `New`: the default client. */
  function New(): (h: Client)
    ensures Cap(h.maxRetries) == 10
    ensures h.maxInterval == 30 * Second
    ensures h.maxElapsedTime == 0
  {
    Client(9, 30 * Second, 0)
  }

  /** Transport errors that retrying cannot repair: redirect loops and untrusted certificates. */
  predicate FatalTransportError(message: string) {
    MatchString(RedirectErrorPattern, message) || MatchString(UntrustedCertErrorPattern, message)
  }

  /** The decision for a 429 response, from its `Retry-After` value. */
  function RateLimited(retryAfter: string): (d: Decision)
    ensures retryAfter == "" ==> d == RetryAfter(Default429RetrySeconds)
    ensures ParseInt64(retryAfter).Some? ==> d == RetryAfter(ParseInt64(retryAfter).value)
    ensures retryAfter != "" && ParseInt64(retryAfter).None? ==> d == Retryable(RetryAfterUnparsable(retryAfter), None)
    ensures d.RetryAfter? ==> MinInt64 <= d.seconds <= MaxInt64
  {
    if retryAfter == "" then RetryAfter(Default429RetrySeconds)
    else
      match ParseInt64(retryAfter)
      case None => Retryable(RetryAfterUnparsable(retryAfter), None)
      case Some(seconds) => RetryAfter(seconds)
  }

  /**
   * The classification ladder of the operation closure: transport error,
   * then 429, then other 4xx, then other non-2xx, then 2xx.
   */
  function Classify(x: Exchange): (d: Decision)
    ensures x.TransportError? ==> (d.Permanent? || d.Retryable?) && d.error == TransportFailure(x.message)
    ensures x.TransportError? ==> (d.Permanent? <==> FatalTransportError(x.message))
    ensures x.Reply? && x.response.status == 429 ==> d == RateLimited(x.response.retryAfter)
    ensures d.Success? <==> x.Reply? && 200 <= x.response.status <= 299
    ensures d.Permanent? <==>
      || (x.TransportError? && FatalTransportError(x.message))
      || (x.Reply? && 400 <= x.response.status <= 499 && x.response.status != 429)
    ensures d.RetryAfter? ==> x.Reply? && x.response.status == 429
    ensures x.Reply? && x.response.status != 429 && !d.Success? ==> d.error == StatusFailure(x.response.status)
    ensures Attached(d) == if x.Reply? && x.response.status != 429 then Some(x.response) else None
    ensures !Exhausted(d)
  {
    match x
    case TransportError(message, _) =>
      if FatalTransportError(message)
      then Permanent(TransportFailure(message), None)
      else Retryable(TransportFailure(message), None)
    case Reply(resp, _) =>
      if resp.status == 429 then RateLimited(resp.retryAfter)
      else if resp.status / 100 == 4 then Permanent(StatusFailure(resp.status), Some(resp))
      else if resp.status / 100 != 2 then Retryable(StatusFailure(resp.status), Some(resp))
      else Success(resp)
  }

  /** `h.MaxRetries+1` in Go's 64-bit arithmetic: the attempt cap of the operation. */
  function Cap(maxRetries: Int64): (c: Int64)
    ensures c == if maxRetries < MaxInt64 then maxRetries + 1 else MinInt64
  {
    Wrap64(maxRetries + 1)
  }

  /**
   * How the operation bounds attempts. `AsWritten` is the source: increment
   * the counter, then give up when it has reached `MaxRetries+1`.
   * `Intended` gives up, without counting, once `MaxRetries+1` transport
   * calls have been made (see README, Findings). Its comparison cannot
   * overflow, but its counter is an unbounded integer here: at
   * `MaxRetries = MaxInt64` a Go `int` counter would wrap after 2^63 calls.
   */
  datatype CapRule = AsWritten | Intended

  /** The bound the counter is driven towards under each rule. */
  function Limit(rule: CapRule, maxRetries: Int64): int {
    match rule
    case AsWritten => Cap(maxRetries)
    case Intended => maxRetries + 1
  }

  /** The result of one operation invocation. */
  datatype Step = Step(md: Metadata, decision: Decision, called: bool)

  /** Call the transport once: classify, and record the duration of a success. */
  function Attempt(md: Metadata, x: Exchange): (s: Step)
    ensures s.called && s.decision == Classify(x) && s.md.requests == md.requests
    ensures s.md.successfulDuration == if s.decision.Success? then x.elapsed else md.successfulDuration
  {
    var d := Classify(x);
    if d.Success? then Step(md.(successfulDuration := x.elapsed), d, true)
    else Step(md, d, true)
  }

  /**
   * The `operation` closure of `DoWithContext`, given the transport's next
   * answer `x` (which it consumes only when `called`).
   */
  function Operation(rule: CapRule, maxRetries: Int64, md: Metadata, x: Exchange): (s: Step)
    ensures rule.AsWritten? ==> s.md.requests == Wrap64(md.requests + 1)
    ensures rule.AsWritten? && MinInt64 <= md.requests < MaxInt64 ==> s.md.requests == md.requests + 1
    ensures rule.AsWritten? ==> (s.called <==> s.md.requests < Cap(maxRetries))
    ensures rule.Intended? ==> (s.called <==> md.requests <= maxRetries)
    ensures rule.Intended? ==> s.md.requests == if s.called then md.requests + 1 else md.requests
    ensures !s.called ==> s.decision == Permanent(MaxAttemptsReached(Limit(rule, maxRetries)), None)
    ensures s.called ==> s.decision == Classify(x)
    ensures s.md.successfulDuration == if s.decision.Success? then x.elapsed else md.successfulDuration
  {
    match rule
    case AsWritten =>
      var counted := md.(requests := Wrap64(md.requests + 1));
      if counted.requests >= Cap(maxRetries)
      then Step(counted, Permanent(MaxAttemptsReached(Cap(maxRetries)), None), false)
      else Attempt(counted, x)
    case Intended =>
      if md.requests > maxRetries
      then Step(md, Permanent(MaxAttemptsReached(maxRetries + 1), None), false)
      else Attempt(md.(requests := md.requests + 1), x)
  }

  /** The outcome of a driven run: final decision and record, and transport calls so far. */
  datatype Run = Run(decision: Decision, md: Metadata, calls: nat)

  /**
   * The external `backoff.Retry` with `MaxElapsedTime = 0`, reduced to what
   * the operation relies on: re-invoke on `Retryable` and `RetryAfter`, stop
   * on `Success` and `Permanent`. `calls` counts the transport calls already
   * made, so `script(calls)` is the transport's next answer.
   */
  function Retry(rule: CapRule, maxRetries: Int64, md: Metadata, calls: nat, script: nat -> Exchange): (r: Run)
    requires rule.AsWritten? ==> MinInt64 <= md.requests < MaxInt64
    ensures Terminal(r.decision)
    ensures calls <= r.calls
    ensures r.md.requests == md.requests + (r.calls - calls) + (if rule.AsWritten? && Exhausted(r.decision) then 1 else 0)
    ensures Exhausted(r.decision) ==> r.decision == Permanent(MaxAttemptsReached(Limit(rule, maxRetries)), None)
    ensures Exhausted(r.decision) && rule.AsWritten? ==> r.md.requests >= Cap(maxRetries)
    ensures Exhausted(r.decision) && rule.Intended? ==> r.md.requests > maxRetries
    ensures !Exhausted(r.decision) && rule.AsWritten? ==> r.md.requests < Cap(maxRetries)
    ensures !Exhausted(r.decision) && rule.Intended? ==> r.md.requests <= maxRetries + 1
    ensures !Exhausted(r.decision) ==> calls < r.calls && r.decision == Classify(script(r.calls - 1))
    ensures forall i :: calls <= i < r.calls - 1 ==> !Terminal(Classify(script(i)))
    ensures Exhausted(r.decision) && calls < r.calls ==> !Terminal(Classify(script(r.calls - 1)))
    ensures rule.AsWritten? ==> r.md.requests <= if Cap(maxRetries) > md.requests + 1 then Cap(maxRetries) else md.requests + 1
    ensures rule.Intended? ==> r.md.requests <= if maxRetries + 1 > md.requests then maxRetries + 1 else md.requests
    ensures r.md.successfulDuration == if r.decision.Success? then script(r.calls - 1).elapsed else md.successfulDuration
    decreases Limit(rule, maxRetries) - md.requests
  {
    var s := Operation(rule, maxRetries, md, script(calls));
    if !s.called then Run(s.decision, s.md, calls)
    else if Terminal(s.decision) then Run(s.decision, s.md, calls + 1)
    else Retry(rule, maxRetries, s.md, calls + 1, script)
  }

  /** The outcome of `DoWithContext`: the decision returned, the carrier afterwards, transport calls made. */
  datatype Call = Call(decision: Decision, ctx: Carrier, calls: nat)

  /**
   * `DoWithContext`: find the record in the carrier (or use a throwaway
   * one), reset its counter, and drive the operation.
   */
  function DoWithContext(h: Client, ctx: Carrier, script: nat -> Exchange): (r: Call)
    requires h.maxElapsedTime == 0
    ensures Terminal(r.decision)
    ensures Exhausted(r.decision) ==> r.decision == Permanent(MaxAttemptsReached(Cap(h.maxRetries)), None)
    ensures !Exhausted(r.decision) ==> 0 < r.calls && r.decision == Classify(script(r.calls - 1))
    ensures forall i :: 0 <= i < r.calls - 1 ==> !Terminal(Classify(script(i)))
    ensures Exhausted(r.decision) ==> forall i :: 0 <= i < r.calls ==> !Terminal(Classify(script(i)))
    ensures GetRequestMetadata(ctx).None? ==> r.ctx == ctx
    ensures GetRequestMetadata(r.ctx).Some? <==> GetRequestMetadata(ctx).Some?
    ensures r.ctx.values.Keys == ctx.values.Keys
    ensures forall k :: k in ctx.values && k != MetadataKey ==> r.ctx.values[k] == ctx.values[k]
    ensures GetRequestMetadata(ctx).Some? ==>
      var n := NumberOfAttemptsFromContext(r.ctx).0;
      && n == r.calls + (if Exhausted(r.decision) then 1 else 0)
      && 1 <= n <= (if Cap(h.maxRetries) > 1 then Cap(h.maxRetries) else 1)
    ensures GetRequestMetadata(ctx).Some? ==>
      SuccessfulRequestDurationFromContext(r.ctx).0 ==
        if r.decision.Success? then script(r.calls - 1).elapsed
        else SuccessfulRequestDurationFromContext(ctx).0
    ensures r.calls <= (if Cap(h.maxRetries) > 1 then Cap(h.maxRetries) - 1 else 0)
    ensures Exhausted(r.decision) ==> r.calls == (if Cap(h.maxRetries) > 1 then Cap(h.maxRetries) - 1 else 0)
    ensures Exhausted(r.decision) && GetRequestMetadata(ctx).Some? ==>
      NumberOfAttemptsFromContext(r.ctx).0 == (if Cap(h.maxRetries) > 1 then Cap(h.maxRetries) else 1)
  {
    var found := GetRequestMetadata(ctx);
    var md := if found.Some? then found.value else Metadata(0, 0);
    var run := Retry(AsWritten, h.maxRetries, md.(requests := 0), 0, script);
    var after := if found.Some? then StoreMetadata(ctx, run.md) else ctx;
    Call(run.decision, after, run.calls)
  }
}

=== FILE: regexp.dfy ===
/**
 * `regexp.MatchString` for patterns made only of literal characters: such a
 * pattern matches a string exactly when it occurs in it as a substring.
 */
module Regexp {

  /** `p` occurs in `s` starting at index `i`. */
  predicate OccursAt(s: string, p: string, i: nat) {
    i + |p| <= |s| && s[i..i + |p|] == p
  }

  function MatchString(p: string, s: string): (r: bool)
    ensures r <==> exists i: nat :: OccursAt(s, p, i)
    decreases |s|
  {
    if |s| < |p| then false
    else if s[..|p|] == p then
      assert OccursAt(s, p, 0);
      true
    else
      var rest := MatchString(p, s[1..]);
      assert forall i: nat :: OccursAt(s[1..], p, i) ==> OccursAt(s, p, i + 1);
      assert forall i: nat :: OccursAt(s, p, i) && i > 0 ==> OccursAt(s[1..], p, i - 1);
      rest
  }

  /** A literal pattern matches any message that embeds it. */
  lemma MatchesEmbedded(p: string, before: string, after: string)
    ensures MatchString(p, before + p + after)
  {
    var s := before + p + after;
    assert s[|before|..|before| + |p|] == p;
    assert OccursAt(s, p, |before|);
  }
}

=== FILE: runs.dfy ===
/**
 * Properties of whole runs of the retry driver and of `DoWithContext`:
 * exact attempt and transport-call counts, stopping at the first terminal
 * outcome, and independence of the outcome from the carrier.
 */
module Runs {
  import opened Wrappers
  import opened Strconv
  import opened Context
  import opened HttpClient

  function Max(a: int, b: int): int {
    if a >= b then a else b
  }

  /** The transport never answers with a success or a permanent failure from call `from` on. */
  ghost predicate NeverTerminal(script: nat -> Exchange, from: nat) {
    forall i: nat :: from <= i ==> !Terminal(Classify(script(i)))
  }

  /**
   * Against an always-retryable transport the source's operation gives up
   * with `MaxAttemptsReached(MaxRetries+1)` once the counter reaches the cap:
   * one transport call fewer than the counter's final value.
   */
  lemma ExhaustedRun(m: Int64, md: Metadata, calls: nat, script: nat -> Exchange)
    requires MinInt64 <= md.requests < MaxInt64
    requires NeverTerminal(script, calls)
    ensures var r := Retry(AsWritten, m, md, calls, script);
      && r.decision == Permanent(MaxAttemptsReached(Cap(m)), None)
      && r.md.requests == Max(Cap(m), md.requests + 1)
      && r.calls == calls + Max(Cap(m) - md.requests - 1, 0)
  {
  }

  /**
   * The run stops at the first success or permanent failure, provided the
   * attempt cap is not reached first: that outcome is returned and nothing
   * after it is consumed.
   */
  lemma StopsAtFirstTerminal(m: Int64, md: Metadata, calls: nat, script: nat -> Exchange, k: nat)
    requires MinInt64 <= md.requests < MaxInt64
    requires calls <= k
    requires forall i :: calls <= i < k ==> !Terminal(Classify(script(i)))
    requires Terminal(Classify(script(k)))
    requires md.requests + (k - calls) + 1 < Cap(m)
    ensures var r := Retry(AsWritten, m, md, calls, script);
      && r.decision == Classify(script(k))
      && r.calls == k + 1
      && r.md.requests == md.requests + (k - calls) + 1
  {
  }

  /**
   * The recorded success duration never steers the driver: two records with
   * the same counter lead to the same decision and the same transport calls.
   */
  lemma {:induction false} RetryIgnoresDuration(rule: CapRule, m: Int64, md1: Metadata, md2: Metadata, calls: nat, script: nat -> Exchange)
    requires rule.AsWritten? ==> MinInt64 <= md1.requests < MaxInt64
    requires md1.requests == md2.requests
    ensures var r1 := Retry(rule, m, md1, calls, script);
      var r2 := Retry(rule, m, md2, calls, script);
      && r1.decision == r2.decision
      && r1.calls == r2.calls
      && r1.md.requests == r2.md.requests
    decreases Limit(rule, m) - md1.requests
  {
    var s1 := Operation(rule, m, md1, script(calls));
    var s2 := Operation(rule, m, md2, script(calls));
    assert s1.called == s2.called && s1.decision == s2.decision && s1.md.requests == s2.md.requests;
    if s1.called && !Terminal(s1.decision) {
      RetryIgnoresDuration(rule, m, s1.md, s2.md, calls + 1, script);
    }
  }

  /**
   * `DoWithContext` against an always-retryable transport: `max(MaxRetries, 0)`
   * transport calls and a final counter of `max(MaxRetries+1, 1)`, except
   * that `MaxRetries+1` wraps to the minimum int64 at `MaxRetries = MaxInt64`.
   */
  lemma AlwaysRetryableCounts(h: Client, ctx: Carrier, script: nat -> Exchange)
    requires h.maxElapsedTime == 0
    requires NeverTerminal(script, 0)
    ensures var r := DoWithContext(h, ctx, script);
      && r.decision == Permanent(MaxAttemptsReached(Cap(h.maxRetries)), None)
      && r.calls == (if h.maxRetries == MaxInt64 then 0 else Max(h.maxRetries, 0))
      && (GetRequestMetadata(ctx).Some? ==>
            NumberOfAttemptsFromContext(r.ctx) == (if h.maxRetries == MaxInt64 then 1 else Max(h.maxRetries + 1, 1), true))
  {
    var found := GetRequestMetadata(ctx);
    var md := if found.Some? then found.value else Metadata(0, 0);
    ExhaustedRun(h.maxRetries, md.(requests := 0), 0, script);
  }

  /**
   * A first outcome that is a success or a permanent failure ends the call
   * after one operation invocation whatever `MaxRetries` is: the counter
   * reads 1. With a cap above 1 that outcome is what the caller gets.
   */
  lemma TerminalFirstOutcome(h: Client, ctx: Carrier, script: nat -> Exchange)
    requires h.maxElapsedTime == 0
    requires Terminal(Classify(script(0)))
    ensures var r := DoWithContext(h, ctx, script);
      && r.calls <= 1
      && (Cap(h.maxRetries) > 1 ==> r.decision == Classify(script(0)) && r.calls == 1)
      && (GetRequestMetadata(ctx).Some? ==> NumberOfAttemptsFromContext(r.ctx) == (1, true))
  {
  }

  /**
   * The carrier only observes a call: the decision and the transport calls
   * are the same whether the record comes from the carrier or is a
   * throwaway one, and a carrier without a record still has none afterwards.
   */
  lemma OutcomeIndependentOfCarrier(h: Client, ctx1: Carrier, ctx2: Carrier, script: nat -> Exchange)
    requires h.maxElapsedTime == 0
    ensures DoWithContext(h, ctx1, script).decision == DoWithContext(h, ctx2, script).decision
    ensures DoWithContext(h, ctx1, script).calls == DoWithContext(h, ctx2, script).calls
    ensures GetRequestMetadata(ctx1).None? ==>
      && NumberOfAttemptsFromContext(DoWithContext(h, ctx1, script).ctx) == (0, false)
      && SuccessfulRequestDurationFromContext(DoWithContext(h, ctx1, script).ctx) == (0, false)
  {
    var f1 := GetRequestMetadata(ctx1);
    var f2 := GetRequestMetadata(ctx2);
    var md1 := if f1.Some? then f1.value else Metadata(0, 0);
    var md2 := if f2.Some? then f2.value else Metadata(0, 0);
    RetryIgnoresDuration(AsWritten, h.maxRetries, md1.(requests := 0), md2.(requests := 0), 0, script);
  }

  /**
   * A call that does not succeed leaves the duration recorded by an earlier
   * successful call in place: `DoWithContext` resets the counter only.
   */
  lemma FailedCallKeepsDuration(h: Client, ctx: Carrier, script: nat -> Exchange)
    requires h.maxElapsedTime == 0
    requires GetRequestMetadata(ctx).Some?
    requires !DoWithContext(h, ctx, script).decision.Success?
    ensures SuccessfulRequestDurationFromContext(DoWithContext(h, ctx, script).ctx)
         == (GetRequestMetadata(ctx).value.successfulDuration, true)
  {
  }
}

=== FILE: scenarios.dfy ===
/**
 * The outcomes the package's tests describe for `DoWithContext`, each
 * against a server that answers the same way on every call. The lemmas
 * for the table-driven test use its client (`MaxRetries = 1`) and a fresh
 * context; with the source's cap that means two operation invocations at
 * most and one transport call for a retryable outcome. The other lemmas
 * say which client and context they use, and some state the
 * classification alone.
 */
module Scenarios {
  import opened Wrappers
  import opened Strconv
  import opened Regexp
  import opened Context
  import opened HttpClient
  import Runs

  /** The client of the table-driven test: one retry, 1ms maximum interval. */
  const TestClient: Client := Client(1, 1_000_000, 0)

  /** A redirect loop: the transport gives up with the redirect message, whatever wraps it. */
  lemma RedirectLoopFailsEarly(before: string, after: string, partial: Option<Response>)
    ensures var message := before + RedirectErrorPattern + after;
      var r := DoWithContext(TestClient, NewContext(), _ => TransportError(message, partial));
      && r.decision == Permanent(TransportFailure(message), None)
      && r.calls == 1
      && NumberOfAttemptsFromContext(r.ctx) == (1, true)
      && SuccessfulRequestDurationFromContext(r.ctx) == (0, true)
  {
    MatchesEmbedded(RedirectErrorPattern, before, after);
  }

  /** An untrusted certificate is just as final as a redirect loop. */
  lemma UntrustedCertificateFailsEarly(before: string, after: string)
    ensures var message := before + UntrustedCertErrorPattern + after;
      Classify(TransportError(message, None)) == Permanent(TransportFailure(message), None)
  {
    MatchesEmbedded(UntrustedCertErrorPattern, before, after);
  }

  /** 429 with `Retry-After: 1`: a wait, then the cap ends the call with an error and no duration. */
  lemma RateLimitedCallsWait(elapsed: nat)
    ensures Classify(Reply(Response(429, "1"), elapsed)) == RetryAfter(1)
    ensures var r := DoWithContext(TestClient, NewContext(), _ => Reply(Response(429, "1"), elapsed));
      && r.decision == Permanent(MaxAttemptsReached(2), None)
      && r.calls == 1
      && NumberOfAttemptsFromContext(r.ctx) == (2, true)
      && SuccessfulRequestDurationFromContext(r.ctx) == (0, true)
  {
    ParseFormatRoundTrip(1);
    assert FormatInt(1) == "1";
  }

  /** 404: one attempt, a permanent error, and the response handed back. */
  lemma NotFoundFailsEarly(elapsed: nat)
    ensures var r := DoWithContext(TestClient, NewContext(), _ => Reply(Response(404, ""), elapsed));
      && r.decision == Permanent(StatusFailure(404), Some(Response(404, "")))
      && NumberOfAttemptsFromContext(r.ctx) == (1, true)
      && SuccessfulRequestDurationFromContext(r.ctx) == (0, true)
  {
  }

  /** 500: retried until the cap, with the counter at 2 and no duration. */
  lemma ServerErrorsKeepRetrying(elapsed: nat)
    ensures var r := DoWithContext(TestClient, NewContext(), _ => Reply(Response(500, ""), elapsed));
      && r.decision == Permanent(MaxAttemptsReached(2), None)
      && r.calls == 1
      && NumberOfAttemptsFromContext(r.ctx) == (2, true)
      && SuccessfulRequestDurationFromContext(r.ctx) == (0, true)
  {
  }

  /** 200: one attempt, success, and that attempt's duration recorded. */
  lemma OkReturnsWithTiming(elapsed: nat)
    ensures var r := DoWithContext(TestClient, NewContext(), _ => Reply(Response(200, ""), elapsed));
      && r.decision == Success(Response(200, ""))
      && NumberOfAttemptsFromContext(r.ctx) == (1, true)
      && SuccessfulRequestDurationFromContext(r.ctx) == (elapsed, true)
  {
  }

  /** A 500 then a 200 with enough retries: success on the second call, timed by that call alone. */
  lemma SuccessAfterServerError(first: nat, second: nat)
    ensures var script := (i: nat) => if i == 0 then Reply(Response(500, ""), first) else Reply(Response(200, ""), second);
      var r := DoWithContext(Client(2, Second, 0), NewContext(), script);
      && r.decision == Success(Response(200, ""))
      && r.calls == 2
      && NumberOfAttemptsFromContext(r.ctx) == (2, true)
      && SuccessfulRequestDurationFromContext(r.ctx) == (second, true)
  {
  }

  /** A bare background context works, and still reports nothing afterwards. */
  lemma NakedContextReportsNothing(elapsed: nat, retryAfter: string)
    ensures var r := DoWithContext(New(), Background, _ => Reply(Response(200, retryAfter), elapsed));
      && r.decision == Success(Response(200, retryAfter))
      && NumberOfAttemptsFromContext(r.ctx) == (0, false)
      && SuccessfulRequestDurationFromContext(r.ctx) == (0, false)
  {
  }

  /** A 429 without `Retry-After` keeps waiting the default second until the default cap fails the call. */
  lemma RateLimitedWithoutRetryAfterFails(elapsed: nat)
    ensures Classify(Reply(Response(429, ""), elapsed)) == RetryAfter(Default429RetrySeconds)
    ensures var r := DoWithContext(New(), Background, _ => Reply(Response(429, ""), elapsed));
      && r.decision == Permanent(MaxAttemptsReached(10), None)
      && NumberOfAttemptsFromContext(r.ctx) == (0, false)
  {
    Runs.AlwaysRetryableCounts(New(), Background, _ => Reply(Response(429, ""), elapsed));
  }

  /** An HTTP-date `Retry-After` is not understood: a plain retryable error, without the response. */
  lemma HttpDateRetryAfterIsRetryable(elapsed: nat)
    ensures var date := "Wed, 21 Oct 2015 07:28:00 GMT";
      Classify(Reply(Response(429, date), elapsed)) == Retryable(RetryAfterUnparsable(date), None)
  {
    ParseRejectsNonDigit("Wed, 21 Oct 2015 07:28:00 GMT", 0);
  }
}

=== FILE: strconv.dfy ===
/**
 * Decimal integers as `strconv.ParseInt(s, 10, 64)` reads them, plus the
 * decimal rendering used as an independent reference for the parser.
 * Go's `int` is taken to be 64 bits wide.
 */
module Strconv {
  import opened Wrappers

  const MinInt64: int := -0x8000_0000_0000_0000
  const MaxInt64: int := 0x7FFF_FFFF_FFFF_FFFF
  const TwoTo64: int := 0x1_0000_0000_0000_0000

  type Int64 = x: int | MinInt64 <= x <= MaxInt64

  /** Two's-complement wrap-around of a mathematical integer into int64. */
  function Wrap64(x: int): (r: Int64)
    ensures MinInt64 <= x <= MaxInt64 ==> r == x
    ensures (r - x) % TwoTo64 == 0
  {
    (x - MinInt64) % TwoTo64 + MinInt64
  }

  predicate IsDigit(c: char) {
    '0' <= c <= '9'
  }

  predicate IsSign(c: char) {
    c == '+' || c == '-'
  }

  predicate AllDigits(s: string) {
    forall i :: 0 <= i < |s| ==> IsDigit(s[i])
  }

  function DigitValue(c: char): nat
    requires IsDigit(c)
  {
    c as int - '0' as int
  }

  /** The value of a string of decimal digits, most significant first. */
  function DigitsValue(ds: string): nat
    requires AllDigits(ds)
  {
    if |ds| == 0 then 0
    else DigitsValue(ds[..|ds| - 1]) * 10 + DigitValue(ds[|ds| - 1])
  }

  /**
   * `strconv.ParseInt(s, 10, 64)`: an optional sign, then one or more ASCII
   * digits (base 10 admits no prefix and no underscores), with a value that
   * fits in int64. Syntax and range errors are both `None`.
   */
  function ParseInt64(s: string): (r: Option<int>)
    ensures r.Some? ==> MinInt64 <= r.value <= MaxInt64
    ensures r.Some? ==> |s| > 0 && (IsDigit(s[0]) || (IsSign(s[0]) && |s| > 1))
    ensures r.Some? && r.value < 0 ==> s[0] == '-'
  {
    if |s| == 0 then None
    else
      var digits := if IsSign(s[0]) then s[1..] else s;
      if |digits| == 0 || !AllDigits(digits) then None
      else
        var magnitude := DigitsValue(digits);
        var v: int := if s[0] == '-' then -(magnitude as int) else magnitude;
        if MinInt64 <= v <= MaxInt64 then Some(v) else None
  }

  function DigitChar(d: nat): (c: char)
    requires d < 10
    ensures IsDigit(c) && DigitValue(c) == d
  {
    ('0' as int + d) as char
  }

  /** Shortest decimal rendering of a natural number. */
  function FormatNat(n: nat): (s: string)
    ensures |s| > 0 && AllDigits(s)
    ensures DigitsValue(s) == n
    decreases n
  {
    if n < 10 then [DigitChar(n)]
    else
      var prefix := FormatNat(n / 10);
      var s := prefix + [DigitChar(n % 10)];
      assert s[..|s| - 1] == prefix;
      s
  }

  /** Decimal rendering of an integer, `-` before negative values (as `strconv.FormatInt`). */
  function FormatInt(n: int): (s: string)
    ensures |s| > 0
  {
    if n < 0 then "-" + FormatNat(-n) else FormatNat(n)
  }

  /** Every int64 survives a trip through its decimal rendering. */
  lemma ParseFormatRoundTrip(n: Int64)
    ensures ParseInt64(FormatInt(n)) == Some(n)
  {
    var s := FormatInt(n);
    if n < 0 {
      var t := FormatNat(-(n as int));
      assert s == "-" + t;
      assert s[0] == '-' && s[1..] == t;
      assert AllDigits(t) && DigitsValue(t) == -(n as int);
    } else {
      assert s == FormatNat(n);
      assert IsDigit(s[0]) && !IsSign(s[0]);
      assert AllDigits(s) && DigitsValue(s) == n;
    }
  }

  /** A leading zero digit adds nothing to a digit string's value. */
  lemma {:induction false} LeadingZeroValue(ds: string)
    requires AllDigits(ds)
    ensures AllDigits("0" + ds)
    ensures DigitsValue("0" + ds) == DigitsValue(ds)
    decreases |ds|
  {
    var zs := "0" + ds;
    assert forall i :: 0 <= i < |zs| ==> IsDigit(zs[i]) by {
      forall i | 0 <= i < |zs| ensures IsDigit(zs[i]) {
        if i > 0 { assert zs[i] == ds[i - 1]; }
      }
    }
    if |ds| > 0 {
      var init := ds[..|ds| - 1];
      assert AllDigits(init) by {
        forall i | 0 <= i < |init| ensures IsDigit(init[i]) { assert init[i] == ds[i]; }
      }
      assert zs[..|zs| - 1] == "0" + init;
      assert zs[|zs| - 1] == ds[|ds| - 1];
      LeadingZeroValue(init);
    }
  }

  /** A `+` sign is accepted and changes nothing: `+5` reads as 5. */
  lemma PlusSignIgnored(ds: string)
    requires |ds| > 0 && AllDigits(ds)
    ensures ParseInt64("+" + ds) == ParseInt64(ds)
  {
    var s := "+" + ds;
    assert s[1..] == ds;
    assert IsDigit(ds[0]) && !IsSign(ds[0]);
  }

  /**
   * Leading zeros are accepted and change nothing, with or without a sign:
   * `007` reads as 7 and `-007` as -7. With the round trip through
   * `FormatInt`, the rejection of out-of-range values and the signed zero
   * this fixes the value of every accepted string.
   */
  lemma LeadingZeroIgnored(sign: string, ds: string)
    requires sign == "" || sign == "+" || sign == "-"
    requires |ds| > 0 && AllDigits(ds)
    ensures ParseInt64(sign + "0" + ds) == ParseInt64(sign + ds)
  {
    LeadingZeroValue(ds);
    var zs := "0" + ds;
    var s := sign + zs;
    var t := sign + ds;
    assert s == sign + "0" + ds;
    assert IsDigit(ds[0]) && !IsSign(ds[0]) && !IsSign(zs[0]);
    if sign == "" {
      assert s == zs && t == ds;
    } else {
      assert s[0] == sign[0] && s[1..] == zs;
      assert t[0] == sign[0] && t[1..] == ds;
    }
  }

  /**
   * A decimal outside the int64 range is an error (Go's `ErrRange`), not a
   * clamped value.
   */
  lemma ParseRejectsOutOfRange(n: int)
    requires n < MinInt64 || n > MaxInt64
    ensures ParseInt64(FormatInt(n)) == None
  {
    var s := FormatInt(n);
    if n < 0 {
      var t := FormatNat(-n);
      assert s == "-" + t;
      assert s[0] == '-' && s[1..] == t;
      assert AllDigits(t) && DigitsValue(t) == -n;
    } else {
      assert s == FormatNat(n);
      assert IsDigit(s[0]) && !IsSign(s[0]);
      assert AllDigits(s) && DigitsValue(s) == n;
    }
  }

  /** A signed zero reads as zero: `-0` and `+0` are 0. */
  lemma SignedZeroIsZero()
    ensures ParseInt64("-0") == Some(0)
    ensures ParseInt64("+0") == Some(0)
  {
    assert "-0"[1..] == "0";
    assert "+0"[1..] == "0";
    assert DigitsValue("0") == DigitsValue("0"[..0]) * 10 + DigitValue('0');
  }

  /**
   * A character that is neither a digit nor a leading sign makes the parse
   * fail: this rules out the HTTP-date form, which always holds letters,
   * spaces and a comma.
   */
  lemma ParseRejectsNonDigit(s: string, i: nat)
    requires i < |s| && !IsDigit(s[i])
    requires i > 0 || !IsSign(s[0])
    ensures ParseInt64(s) == None
  {
    if IsSign(s[0]) {
      assert s[1..][i - 1] == s[i];
    }
  }
}

=== FILE: wrappers.dfy ===
/** Optional values, used for lookups that may find nothing and parses that may fail. */
module Wrappers {

  datatype Option<+T> = None | Some(value: T)
}
